=== FILE: README.md ===
# defiads peer-pool supervisor and trunk view, in Dafny

This project models two parts of the defiads node.

The first is the peer-pool supervisor `KeepConnected`. It keeps at least
`min_connections` outbound peer sessions open. When the pool is short it
tops it up from a cached DNS-seed answer, and on every wakeup it drops
sessions that have finished. When the pool is empty it stops with the fatal
"no more peers". The code exists twice, as near-identical copies in
`src/p2p_bitcoin.rs` (lines 126-204) and `src/biadnet/main.rs` (lines 115-192).
The only difference is where the network argument of `dns_seed` comes from
(`self.network` against `self.p2p.network`). Both copies are modelled once.
The table below cites each copy for some members. The line correspondence is:

| code | src/p2p_bitcoin.rs | src/biadnet/main.rs |
|---|---|---|
| initial sessions | 128-132 | 117-121 |
| `poll` loop | 148-181 | 136-169 |
| `dns_lookup` | 189-200 | 177-188 |
| constructor | 203 | 191 |

The second part is `ChainDBTrunk`, the read-only trunk view over the chain
database (`is_on_trunk`, `get_header`, `get_height`, `get_tip`, `len`).
Alongside it sits the downstream hook `BitcoinDriver` / `Driver`, which
forwards header notifications to the content store.

Modules:

- `Wrappers` (wrappers.dfy): `Option`.
- `Peers` (peers.dfy): addresses, sessions, poll outcomes, the pool state and
  the constructor `keep_connected`.
- `DnsLookup` (dns_lookup.dfy): `dns_lookup`, with the random pick and the
  seeder as oracles.
- `PollLoop` (poll_loop.dfy): one call of `KeepConnected::poll`.
- `Supervisor` (supervisor.dfy): successive polls of the supervisor future, and the start
  both entry points use (no initial peers, target 3).
- `ChainTrunk` (trunk.dfy): the trunk view over an abstract chain database.
- `Downstream` (downstream.dfy): the `Downstream` hook of both drivers.

How the foreign parts are represented:

- A session is the future that `add_peer` returns. `Session(id, target)`
  records the future's identity as a number issued from the counter
  `nextId`, plus the address it connects to.
- `thread_rng().next_u64()` is the stream `rng: nat -> U64`. The k-th draw
  is `rng(k)`, and the pool counts its draws in `draws`. `usize` is taken to
  be 64 bits wide, so `as usize` leaves the draw unchanged.
- `dns_seed` is the sequence `seeds` of its successive answers.
- What polling each future reports during one call of `poll` is the map
  `o: Outcomes` from session id to `Running`, `Ended(addr)` or `Failed`. An
  id with no entry is still running.

The `dns_lookup` loop does not exit while the pool is short, the cache is
empty and the seeder keeps answering empty. The model shows this as the
`Spinning` result: the supplied seeder answers are used up, the loop is still
running, and the pool is unchanged. `TopUp` states exactly when this
happens. The fatal branch of `poll` can therefore fire only with a target of
zero. Both entry points use a target of 3, so for them the node never
reaches "no more peers": when peers run out it spins in `dns_lookup`
instead.

## Behaviour of the code worth noting

- While the cache is empty, the seeder is called on every loop iteration of
  `dns_lookup`. The loop does not give up after one refresh (`TopUp`,
  `Spinning`).
- `poll` checks for an empty pool after the top-up, so with a positive
  target the fatal branch is never taken (`Poll`).
- The seeder is called only while the cache is empty, so once filled the
  cache is never refreshed, even when the pool is short
  (`TopUpKeepsFullCache`, `StartWithThree`).
- `peers_from_db` returns no peers, so only DNS is modelled as an address
  source.

## Model

| member | source | states |
|---|---|---|
| Peers.KeepConnected | src/p2p_bitcoin.rs:126-132 | The initial pool holds one session per given address, in the given order with duplicates kept (its targets are exactly the address list). The DNS cache starts empty (line 203), the target is the one given, and every session is a different future. |
| Peers.OpenAll | src/biadnet/main.rs:117-121 | The initial `add_peer` loop creates exactly one session per address. The k-th session is a new future aimed at the k-th address. |
| DnsLookup.PickIndex | src/p2p_bitcoin.rs:194-197 | For every 64-bit draw, the cache index `draw % len` is below the cache length, so the pick never goes out of bounds. |
| DnsLookup.LoopBody | src/biadnet/main.rs:178-187 | One loop iteration replaces the cache with the seeder's answer exactly when the cache is empty; a non-empty cache is kept. If the cache is still empty afterwards, the iteration changes nothing (the spin). Otherwise it appends one session, a new future aimed at the cache entry its draw picks. |
| DnsLookup.TopUp | src/p2p_bitcoin.rs:189-200 | When the loop exits, the pool holds exactly `max(old size, min_connections)` sessions, with the old ones untouched and in order. The loop fails to exit exactly when the pool is short, the cache is empty and every seeder answer is empty; spinning changes nothing. A pool already at target is left alone. |
| DnsLookup.TopUpAppendsFreshPicks | src/biadnet/main.rs:182-186 | Every appended session is a new future, numbered on from the counter, whose target is the cache entry picked by its own random draw. One draw is used per appended session. |
| DnsLookup.TopUpKeepsFullCache | src/p2p_bitcoin.rs:191-193 | A non-empty cache comes out of the top-up unchanged, and the seeder is not called. |
| DnsLookup.TopUpSeedsOnce | src/biadnet/main.rs:179-181 | With a short pool and an empty cache, a top-up that exits called the seeder until its first non-empty answer, cached that answer, and called it no more. |
| DnsLookup.TopUpPreservesDistinctIds | src/p2p_bitcoin.rs:197 | After the top-up, no two sessions in the pool are the same future. |
| PollLoop.FirstFinished | src/p2p_bitcoin.rs:161-175 | The lazy scan finds the lowest-index session whose poll reports finished, whether ended or failed, or none when every session is running. |
| PollLoop.FirstFinishedIgnoresLater | src/biadnet/main.rs:149-163 | The scan's answer depends only on the sessions up to and including the one it finds. Sessions after it are not polled. |
| PollLoop.Reap | src/biadnet/main.rs:164-167 | A loop round removes exactly one session, the lowest-index finished one. Every other session, finished or not, stays in its relative order. Nothing is removed when no session has finished. |
| PollLoop.TopUpKeepsMeasure | src/p2p_bitcoin.rs:150-180 | A top-up does not change the number of finished futures, counting both those in the pool and those not yet created. Every removal lowers that number, so a call of `poll` cannot remove sessions without end as long as only finitely many futures report finished. |
| PollLoop.Poll | src/p2p_bitcoin.rs:148-181 | `poll` returns Ready ("no more peers") only with an empty pool, which the top-up allows only when `min_connections` is 0. It returns Pending only when no session has finished and the pool holds at least `max(1, min_connections)` sessions. It hangs only when the top-up spins, which leaves the pool short of its target with an empty cache. The target never changes. |
| PollLoop.PollFatalIff | src/biadnet/main.rs:140-147 | With a target of 0, a call of `poll` ends in "no more peers" exactly when every session of the pool has finished. |
| PollLoop.PollParkedKeepsRunning | src/p2p_bitcoin.rs:176-179 | When `poll` returns Pending, the pool starts with exactly the old sessions that had not finished, in their old order. Everything after them is a future created during this call. |
| PollLoop.PollNeverSpinsWithFullCache | src/p2p_bitcoin.rs:149-199 | With a non-empty DNS cache, a call of `poll` never hangs in the top-up: it completes or returns Pending. |
| PollLoop.PollKeepsFullCache | src/biadnet/main.rs:177-181 | A non-empty DNS cache is the same after a call of `poll`. |
| PollLoop.PollPreservesDistinctIds | src/biadnet/main.rs:164-166 | After a call of `poll`, no two sessions in the pool are the same future. |
| Supervisor.Run | src/p2p_bitcoin.rs:143-150 | Over any number of wakeups, the supervisor completes with "no more peers" only if its target is 0, and then with an empty pool. While it is pending, the pool holds at least its target. It hangs only in a top-up that spins, leaving the pool short of its target with an empty cache. |
| Supervisor.RunNeverSpinsWithFullCache | src/biadnet/main.rs:137-187 | Once the DNS cache is non-empty, no later wakeup hangs in the top-up. |
| Supervisor.RunKeepsFullCache | src/p2p_bitcoin.rs:191-193 | Once the DNS cache is non-empty, it stays unchanged across all later top-ups and wakeups. |
| Supervisor.RunPreservesDistinctIds | src/p2p_bitcoin.rs:137 | Across all wakeups, each session future is held by the pool at most once. |
| Supervisor.StartWithThree | src/biadnet/main.rs:96 | Started with no peers and a target of 3, the supervisor never reports "no more peers". Given the seeder answer [A, B] twice and with every session still running, the first wakeup opens three sessions to A or B, caches [A, B], calls the seeder once and parks. |
| ChainTrunk.AnswersReadOwnPart | src/p2p_bitcoin.rs:228-257 | Each answer depends on one part of the database only. `is_on_trunk` and `get_height` read the trunk index, `get_header` reads the header store (so it also finds headers off the trunk), and `get_tip` and `len` read the tip. |
| ChainTrunk.OnTrunkIffHeight | src/p2p_bitcoin.rs:229-242 | `is_on_trunk(h)` holds exactly when `get_height(h)` is some height, because both read the same `pos_on_trunk`. |
| ChainTrunk.LenFollowsTip | src/p2p_bitcoin.rs:244-256 | If `get_tip()` is nothing, `len()` is 0. A non-zero `len()` means a tip exists, and `len()` is that tip's height. |
| ChainTrunk.ViewIsCoherent | src/p2p_bitcoin.rs:228-257 | Given a database whose trunk index, header store and tip agree, a hash on the trunk has a header. Its height is the height that header was stored at, and is no greater than `len()`. The tip is on the trunk at height `len()`, `get_header` returns it, and an empty chain has nothing on its trunk. |
| Downstream.Notify | src/p2p_bitcoin.rs:212-222 | `block_connected` changes nothing. A successful `header_connected` appends `add_header(header)` to the calls made so far, and a successful `block_disconnected` appends `unwind_tip(header)`; earlier calls are kept. A failing store call panics with "can not add header" or "can not unwind tip". A panicked driver stays panicked. |
| Downstream.DriveForwardsInOrder | src/biadnet/main.rs:103-113 | While the store succeeds, the driver forwards exactly one `add_header` per connected header and one `unwind_tip` per disconnected block, in delivery order. |
| Downstream.BlockConnectedIsInert | src/biadnet/main.rs:104 | Removing every `block_connected` notification from any sequence leaves the driver's result unchanged. |
| Downstream.PanicIsFinal | src/p2p_bitcoin.rs:216-220 | Once a store call fails, the driver has panicked (`expect`), and no later notification reaches the store. |

## Left out

- Futures and scheduling are not modelled: the executor, the thread pool, `task::Context` wakeups and `P2P::run`. A call of `poll` is a function of the pool, the seeder answers, the random stream and the outcome map.
- Within one call of `poll`, what each future reports is fixed. In the code, a future polled as pending early in the call could be ready when polled again in a later round of the same call.
- Polling has no side effects in the model. Registering the future for wakeups is not modelled.
- `dns_seed`, `add_peer` and `thread_rng` are oracles, as described above. The network argument of `dns_seed` (`self.network` or `p2p.network`) is not modelled, since the seeder answers stand in for it.
- DnsLookup.PickIndex: assumes a 64-bit `usize`. On a 32-bit target `as usize` truncates the draw first. The index is still below the length, but it is not `draw % len`.
- PollLoop.TopUpKeepsMeasure: the measure is finite only because `Outcomes` is a finite map, so only finitely many futures report finished in one pass. The code has no such bound. With a non-empty cache and sessions that each finish at their first poll, the `loop` of `poll` (src/p2p_bitcoin.rs:150-180) removes a session, tops up, and removes again forever, never reaching a `return`. The model cannot express this hang.
- DnsLookup.TopUp: a loop that never exits is represented by the `Spinning` result, returned when the supplied seeder answers run out. The real call never returns. PollLoop.Poll's `LookupSpins` result stands for the same hang.
- `peers_from_db` is empty (a TODO in the code), and the `earlier` set is never read. No peer blacklist is modelled.
- The `error!` and `trace!` logging is not modelled.
- The content store (`ContentStore::add_header`, `unwind_tip`) is not part of this model. Downstream records the calls made on it, and each notification carries whether the call succeeds. `src/biadnet/main.rs` calls `unwind_tip()` without the header; the model records the header as `src/p2p_bitcoin.rs` passes it.
- ChainTrunk.ViewIsCoherent: `Consistent` is an assumption about the external chain database, whose code is not part of this model. The view's own code only reads the database.
- Locking: each trunk-view method takes its own read lock, and the `Mutex`/`RwLock` wrappers are not modelled. No claim is made about agreement between answers read under different locks.
- Node startup (`init`, `main`: configuration, logger, channel, dispatcher, thread pool) is not modelled. Only the `keep_connected` arguments it passes (no peers, target 3) appear, in Supervisor.StartWithThree.
- `src/lib.rs` only declares modules (`text`, `ad`, `iblt`, `messages`, `content`, `funding`) whose sources are not part of this model.

=== FILE: dns_lookup.dfy ===
/**
  `KeepConnected::dns_lookup`: top the pool up to `minConnections` with
  sessions to addresses drawn at random from a cached DNS answer.

  The DNS seeder and the random number generator are oracles: `seeds` lists
  the seeder's successive answers, and `rng(k)` is the k-th random draw.
 */
module DnsLookup {
  import opened Peers

  function Max(a: nat, b: nat): nat
  {
    if a >= b then a else b
  }

  /** The cache index a draw picks: `(draw as usize) % len`, with a 64-bit `usize`. */
  function PickIndex(draw: U64, len: nat): (i: nat)
    requires len > 0
    ensures i < len
  {
    draw % len
  }

  /**
    One run of the body of the `while` loop: an empty cache is replaced by the
    seeder's `answer` (consulted only then), and a non-empty cache supplies the
    target of one new session.
   */
  function LoopBody(p: Pool, answer: seq<Addr>, rng: nat -> U64): (q: Pool)
    ensures p.dns != [] ==> q.dns == p.dns
    ensures p.dns == [] ==> q.dns == answer
    ensures q.dns == [] ==> q == p
    ensures q.dns != [] ==>
      && q.connections == p.connections + [Session(p.nextId, q.dns[PickIndex(rng(p.draws), |q.dns|)])]
      && q.nextId == p.nextId + 1
      && q.draws == p.draws + 1
    ensures q.minConnections == p.minConnections
  {
    var dns := if |p.dns| == 0 then answer else p.dns;
    if |dns| > 0 then
      var addr := dns[PickIndex(rng(p.draws), |dns|)];
      p.(connections := p.connections + [Session(p.nextId, addr)], dns := dns,
         nextId := p.nextId + 1, draws := p.draws + 1)
    else
      p.(dns := dns)
  }

  /**
    How the top-up ends: the loop exits with the pool at its target and the
    seeder answers not yet consumed, or it is still spinning when the given
    answers run out.
   */
  datatype Lookup = Filled(pool: Pool, seeds: seq<seq<Addr>>) | Spinning(pool: Pool)

  /** All the given seeder answers are empty. */
  predicate AllEmpty(seeds: seq<seq<Addr>>)
  {
    forall k :: 0 <= k < |seeds| ==> seeds[k] == []
  }

  /**
    The `while` loop of `dns_lookup`. On exit the pool has exactly
    `max(old size, minConnections)` sessions, the old ones untouched and in
    order. The loop spins exactly when the pool is short, the cache is empty
    and the seeder only answers empty; spinning changes nothing.
   */
  function TopUp(p: Pool, seeds: seq<seq<Addr>>, rng: nat -> U64): (r: Lookup)
    decreases p.minConnections - |p.connections|, |seeds|
    ensures r.Spinning? <==> |p.connections| < p.minConnections && p.dns == [] && AllEmpty(seeds)
    ensures r.Spinning? ==> r.pool == p
    ensures |p.connections| >= p.minConnections ==> r == Filled(p, seeds)
    ensures r.Filled? ==> |r.pool.connections| == Max(|p.connections|, p.minConnections)
    ensures r.Filled? ==> r.pool.connections[..|p.connections|] == p.connections
    ensures r.pool.minConnections == p.minConnections
    ensures r.pool.nextId >= p.nextId
  {
    if |p.connections| >= p.minConnections then
      Filled(p, seeds)
    else if |p.dns| == 0 && |seeds| == 0 then
      Spinning(p)
    else
      var answer := if |p.dns| == 0 then seeds[0] else [];
      var rest := if |p.dns| == 0 then seeds[1..] else seeds;
      var q := LoopBody(p, answer, rng);
      assert q.connections[..|p.connections|] == p.connections;
      TopUp(q, rest, rng)
  }

  /**
    `r` extends `p` only by fresh futures, numbered on from `p.nextId`, each
    aimed at the entry of `r`'s cache that its own random draw picks.
   */
  ghost predicate FreshPicks(p: Pool, r: Pool, rng: nat -> U64)
  {
    && |p.connections| <= |r.connections|
    && (|r.connections| > |p.connections| ==> r.dns != [])
    && r.nextId == p.nextId + (|r.connections| - |p.connections|)
    && r.draws == p.draws + (|r.connections| - |p.connections|)
    && forall j :: |p.connections| <= j < |r.connections| ==>
         && r.connections[j].id == p.nextId + (j - |p.connections|)
         && r.connections[j].target == r.dns[PickIndex(rng(p.draws + (j - |p.connections|)), |r.dns|)]
  }

  /** A pushing loop iteration followed by fresh picks is fresh picks from the start. */
  lemma FreshPicksStep(p: Pool, q: Pool, r: Pool, answer: seq<Addr>, rng: nat -> U64)
    requires q == LoopBody(p, answer, rng) && q.dns != []
    requires r.dns == q.dns && |q.connections| <= |r.connections| && r.connections[..|q.connections|] == q.connections
    requires FreshPicks(q, r, rng)
    ensures FreshPicks(p, r, rng)
  {
  }

  /** Every session the top-up appends is a fresh future aimed at the cache entry its draw picks. */
  lemma {:induction false} TopUpAppendsFreshPicks(p: Pool, seeds: seq<seq<Addr>>, rng: nat -> U64)
    requires TopUp(p, seeds, rng).Filled?
    ensures FreshPicks(p, TopUp(p, seeds, rng).pool, rng)
    decreases p.minConnections - |p.connections|, |seeds|
  {
    if |p.connections| < p.minConnections {
      var answer := if |p.dns| == 0 then seeds[0] else [];
      var rest := if |p.dns| == 0 then seeds[1..] else seeds;
      var q := LoopBody(p, answer, rng);
      TopUpAppendsFreshPicks(q, rest, rng);
      if q.dns != [] {
        TopUpKeepsFullCache(q, rest, rng);
        FreshPicksStep(p, q, TopUp(q, rest, rng).pool, answer, rng);
      }
    }
  }

  /** A non-empty cache survives the top-up unchanged, and the seeder is then never consulted. */
  lemma {:induction false} TopUpKeepsFullCache(p: Pool, seeds: seq<seq<Addr>>, rng: nat -> U64)
    requires p.dns != []
    ensures TopUp(p, seeds, rng) == Filled(TopUp(p, seeds, rng).pool, seeds)
    ensures TopUp(p, seeds, rng).pool.dns == p.dns
    decreases p.minConnections - |p.connections|
  {
    if |p.connections| < p.minConnections {
      TopUpKeepsFullCache(LoopBody(p, [], rng), seeds, rng);
    }
  }

  /**
    The seeder's first non-empty answer, and the answers after it; an empty
    answer and no further answers when every answer is empty.
   */
  function FirstAnswer(seeds: seq<seq<Addr>>): (r: (seq<Addr>, seq<seq<Addr>>))
    ensures r.0 == [] <==> AllEmpty(seeds)
    ensures r.0 != [] ==> r.0 in seeds && |r.1| < |seeds|
  {
    if seeds == [] then ([], [])
    else if seeds[0] != [] then (seeds[0], seeds[1..])
    else
      assert forall k :: 1 <= k < |seeds| ==> seeds[k] == seeds[1..][k - 1];
      FirstAnswer(seeds[1..])
  }

  /**
    When the pool is short and the cache empty, a completed top-up consults
    the seeder until its first non-empty answer, caches that answer, and
    consults it no further.
   */
  lemma {:induction false} TopUpSeedsOnce(p: Pool, seeds: seq<seq<Addr>>, rng: nat -> U64)
    requires |p.connections| < p.minConnections && p.dns == []
    ensures var r := TopUp(p, seeds, rng);
      r.Filled? ==> r.pool.dns == FirstAnswer(seeds).0 && r.seeds == FirstAnswer(seeds).1
    decreases |seeds|
  {
    if |seeds| > 0 {
      if seeds[0] == [] {
        TopUpSeedsOnce(p, seeds[1..], rng);
      } else {
        TopUpKeepsFullCache(LoopBody(p, seeds[0], rng), seeds[1..], rng);
      }
    }
  }

  /** The top-up keeps every session a distinct future: the new ones get ids no session had. */
  lemma TopUpPreservesDistinctIds(p: Pool, seeds: seq<seq<Addr>>, rng: nat -> U64)
    requires DistinctIds(p)
    ensures DistinctIds(TopUp(p, seeds, rng).pool)
  {
    var r := TopUp(p, seeds, rng);
    if r.Filled? {
      TopUpAppendsFreshPicks(p, seeds, rng);
      var c := r.pool.connections;
      var n := |p.connections|;
      forall i | 0 <= i < n
        ensures c[i] == p.connections[i]
      {
        assert c[..n][i] == c[i];
      }
    }
  }
}

=== FILE: downstream.dfy ===
/**
  The header downloader's downstream hook (`BitcoinDriver`, `Driver`): it
  forwards header notifications to the content store and panics when the
  store reports an error. The store itself is outside the model; a
  notification carries whether the store call it triggers succeeds.
 */
module Downstream {
  import opened ChainTrunk

  datatype Block = Block(header: BlockHeader, txCount: nat)

  /** A call the driver makes on the content store. */
  datatype StoreCall = AddHeader(header: BlockHeader) | UnwindTip(header: BlockHeader)

  /** The driver: the store calls forwarded so far, or the panic that ended it. */
  datatype Driver = Forwarding(calls: seq<StoreCall>) | Panicked(message: string)

  /** A notification from the header downloader; `storeOk` is the outcome of the store call it causes. */
  datatype Notification =
    | BlockConnected(block: Block, height: U32)
    | HeaderConnected(header: BlockHeader, height: U32, storeOk: bool)
    | BlockDisconnected(header: BlockHeader, storeOk: bool)

  /** The store call a notification asks for: none for `block_connected`. */
  function CallOf(n: Notification): seq<StoreCall>
  {
    match n
    case BlockConnected(_, _) => []
    case HeaderConnected(header, _, _) => [AddHeader(header)]
    case BlockDisconnected(header, _) => [UnwindTip(header)]
  }

  /** The notification causes no store call, or its store call succeeds. */
  predicate Succeeds(n: Notification)
  {
    n.BlockConnected? || n.storeOk
  }

  /** One notification: `block_connected`, `header_connected` or `block_disconnected`. */
  function Notify(d: Driver, n: Notification): (r: Driver)
    ensures d.Panicked? ==> r == d
    ensures n.BlockConnected? ==> r == d
    ensures d.Forwarding? && !n.BlockConnected? && n.storeOk ==>
      && r.Forwarding? && |r.calls| == |d.calls| + 1
      && r.calls[..|d.calls|] == d.calls
      && r.calls[|d.calls|] == (if n.HeaderConnected? then AddHeader(n.header) else UnwindTip(n.header))
    ensures d.Forwarding? && !n.BlockConnected? && !n.storeOk ==>
      r == Panicked(if n.HeaderConnected? then "can not add header" else "can not unwind tip")
  {
    match d
    case Panicked(_) => d
    case Forwarding(calls) =>
      if Succeeds(n) then Forwarding(calls + CallOf(n))
      else if n.HeaderConnected? then Panicked("can not add header")
      else Panicked("can not unwind tip")
  }

  /** A sequence of notifications, delivered in order. */
  function Drive(d: Driver, ns: seq<Notification>): Driver
    decreases |ns|
  {
    if ns == [] then d else Drive(Notify(d, ns[0]), ns[1..])
  }

  /** The store calls a sequence of notifications asks for, in order. */
  function StoreCalls(ns: seq<Notification>): seq<StoreCall>
  {
    if ns == [] then [] else CallOf(ns[0]) + StoreCalls(ns[1..])
  }

  /** The notifications without the `block_connected` ones. */
  function WithoutBlocks(ns: seq<Notification>): (r: seq<Notification>)
    ensures forall k :: 0 <= k < |r| ==> !r[k].BlockConnected?
  {
    if ns == [] then []
    else if ns[0].BlockConnected? then WithoutBlocks(ns[1..])
    else [ns[0]] + WithoutBlocks(ns[1..])
  }

  /** Every store call succeeds. */
  predicate AllSucceed(ns: seq<Notification>)
  {
    forall k :: 0 <= k < |ns| ==> Succeeds(ns[k])
  }

  /** While the store succeeds, the driver forwards exactly the header calls, in delivery order. */
  lemma {:induction false} DriveForwardsInOrder(calls: seq<StoreCall>, ns: seq<Notification>)
    requires AllSucceed(ns)
    ensures Drive(Forwarding(calls), ns) == Forwarding(calls + StoreCalls(ns))
    decreases |ns|
  {
    if ns == [] {
      assert calls + [] == calls;
    } else {
      assert Succeeds(ns[0]);
      assert AllSucceed(ns[1..]) by {
        forall k | 0 <= k < |ns[1..]|
          ensures Succeeds(ns[1..][k])
        {
          assert ns[1..][k] == ns[k + 1];
        }
      }
      var d := Notify(Forwarding(calls), ns[0]);
      DriveForwardsInOrder(d.calls, ns[1..]);
      var head := CallOf(ns[0]);
      assert calls + head + StoreCalls(ns[1..]) == calls + (head + StoreCalls(ns[1..]));
    }
  }

  /** `block_connected` has no effect: removing those notifications changes nothing. */
  lemma {:induction false} BlockConnectedIsInert(d: Driver, ns: seq<Notification>)
    ensures Drive(d, ns) == Drive(d, WithoutBlocks(ns))
    decreases |ns|
  {
    if ns != [] {
      BlockConnectedIsInert(Notify(d, ns[0]), ns[1..]);
      if !ns[0].BlockConnected? {
        assert ([ns[0]] + WithoutBlocks(ns[1..]))[1..] == WithoutBlocks(ns[1..]);
      }
    }
  }

  /** A panic ends the driver: no later notification is forwarded. */
  lemma {:induction false} PanicIsFinal(message: string, ns: seq<Notification>)
    ensures Drive(Panicked(message), ns) == Panicked(message)
    decreases |ns|
  {
    if ns != [] {
      PanicIsFinal(message, ns[1..]);
    }
  }
}

=== FILE: peers.dfy ===
/**
  The state of the peer-pool supervisor `KeepConnected`, with the futures
  machinery abstracted away, and the constructor `keep_connected` that builds
  the initial pool.
 */
module Peers {

  /** A peer socket address. */
  datatype Addr = Addr(ip: nat, port: nat)

  /** A 64-bit unsigned integer: one draw of the random number generator. */
  type U64 = x: nat | x < 0x1_0000_0000_0000_0000

  /**
    One outbound session: the future that `add_peer` returns. `id` stands for
    the identity of that future, `target` for the address it connects to.
   */
  datatype Session = Session(id: nat, target: Addr)

  /** What polling a session reports: still running, ended (with the peer's address), or failed with an error. */
  datatype Outcome = Running | Ended(peer: Addr) | Failed

  /**
    What the polls of one pass report, per session id. An id without an entry
    is still running. Being a finite map, it lets only finitely many futures
    report finished in one pass, so a pass cannot churn forever through
    sessions that each finish at once.
   */
  type Outcomes = map<nat, Outcome>

  /**
    The supervisor's state: the live sessions in pool order, the cached DNS
    answer, the connection target, the id the next session will get, and the
    number of random draws made so far.
   */
  datatype Pool = Pool(connections: seq<Session>, dns: seq<Addr>, minConnections: nat, nextId: nat, draws: nat)

  function Status(s: Session, outcomes: Outcomes): Outcome
  {
    if s.id in outcomes then outcomes[s.id] else Running
  }

  /** A session has finished when its poll reports either a normal end or an error. */
  predicate Finished(s: Session, outcomes: Outcomes)
  {
    !Status(s, outcomes).Running?
  }

  /** Every session is a different future, and each was created before id `n`. */
  predicate DistinctBelow(c: seq<Session>, n: nat)
  {
    && (forall i :: 0 <= i < |c| ==> c[i].id < n)
    && (forall i, j :: 0 <= i < j < |c| ==> c[i].id != c[j].id)
  }

  /** No two sessions of the pool are the same future, and `nextId` is unused. */
  predicate DistinctIds(p: Pool)
  {
    DistinctBelow(p.connections, p.nextId)
  }

  /** The addresses the sessions connect to, in pool order. */
  function Targets(c: seq<Session>): (t: seq<Addr>)
    ensures |t| == |c|
    ensures forall i :: 0 <= i < |c| ==> t[i] == c[i].target
  {
    if c == [] then [] else [c[0].target] + Targets(c[1..])
  }

  /**
    The loop of `keep_connected` that calls `add_peer` once per initial
    address, numbering the new sessions from `first`.
   */
  function OpenAll(peers: seq<Addr>, first: nat): (added: seq<Session>)
    ensures |added| == |peers|
    ensures forall i :: 0 <= i < |peers| ==> added[i] == Session(first + i, peers[i])
  {
    if peers == [] then [] else [Session(first, peers[0])] + OpenAll(peers[1..], first + 1)
  }

  /**
    `keep_connected`: one session per initial address, in the given order
    with duplicates kept, and an empty DNS cache.
   */
  function KeepConnected(peers: seq<Addr>, minConnections: nat): (p: Pool)
    ensures Targets(p.connections) == peers
    ensures p.dns == []
    ensures p.minConnections == minConnections
    ensures DistinctIds(p)
  {
    Pool(OpenAll(peers, 0), [], minConnections, |peers|, 0)
  }
}

=== FILE: poll_loop.dfy ===
/**
  `KeepConnected::poll`: one pass of the supervisor. Each round of its loop
  tops the pool up, declares the fatal "no more peers" when the pool is
  empty, and otherwise removes the first finished session and goes round
  again, or parks the supervisor when no session has finished.
 */
module PollLoop {
  import opened Wrappers
  import opened Peers
  import opened DnsLookup

  /**
    The lazy scan `iter_mut().enumerate().filter_map(..).next()`: the index
    of the lowest-numbered finished session. Sessions after it are not polled.
   */
  function FirstFinished(c: seq<Session>, o: Outcomes): (r: Option<nat>)
    ensures r.Some? ==> r.value < |c| && Finished(c[r.value], o)
    ensures r.Some? ==> forall j :: 0 <= j < r.value ==> !Finished(c[j], o)
    ensures r.None? <==> forall j :: 0 <= j < |c| ==> !Finished(c[j], o)
  {
    if c == [] then None
    else if Finished(c[0], o) then Some(0)
    else match FirstFinished(c[1..], o)
      case None => None
      case Some(k) => Some(k + 1)
  }

  /**
    The scan's answer depends only on the sessions up to the one it finds:
    the sessions after it are never looked at.
   */
  lemma FirstFinishedIgnoresLater(c: seq<Session>, d: seq<Session>, i: nat, o: Outcomes)
    requires FirstFinished(c, o) == Some(i)
    requires i < |d| && forall j :: 0 <= j <= i ==> d[j] == c[j]
    ensures FirstFinished(d, o) == Some(i)
  {
  }

  /** The sessions that are still running, in pool order. */
  function Unfinished(c: seq<Session>, o: Outcomes): (u: seq<Session>)
    ensures |u| <= |c|
  {
    if c == [] then [] else (if Finished(c[0], o) then [] else [c[0]]) + Unfinished(c[1..], o)
  }

  /** The running sessions are sessions of the pool, and none has finished. */
  lemma {:induction false} UnfinishedMembers(c: seq<Session>, o: Outcomes)
    ensures forall s :: s in Unfinished(c, o) ==> s in c && !Finished(s, o)
  {
    if c != [] {
      UnfinishedMembers(c[1..], o);
    }
  }

  lemma {:induction false} UnfinishedAppend(a: seq<Session>, b: seq<Session>, o: Outcomes)
    ensures Unfinished(a + b, o) == Unfinished(a, o) + Unfinished(b, o)
  {
    if a == [] {
      assert a + b == b;
    } else {
      assert (a + b)[0] == a[0];
      assert (a + b)[1..] == a[1..] + b;
      UnfinishedAppend(a[1..], b, o);
    }
  }

  /** With no session finished, every session is still running. */
  lemma {:induction false} UnfinishedOfRunning(c: seq<Session>, o: Outcomes)
    requires forall j :: 0 <= j < |c| ==> !Finished(c[j], o)
    ensures Unfinished(c, o) == c
  {
    if c != [] {
      UnfinishedOfRunning(c[1..], o);
    }
  }

  /** Dropping a finished session loses no running one. */
  lemma {:induction false} UnfinishedSkipsFinished(c: seq<Session>, i: nat, o: Outcomes)
    requires i < |c| && Finished(c[i], o)
    ensures Unfinished(c[..i] + c[i + 1..], o) == Unfinished(c, o)
  {
    var d := c[..i] + c[i + 1..];
    if i == 0 {
      assert d == c[1..];
    } else {
      assert d[0] == c[0];
      assert d[1..] == c[1..][..i - 1] + c[1..][i..];
      UnfinishedSkipsFinished(c[1..], i - 1, o);
    }
  }

  /**
    One round's removal: exactly the lowest-index finished session goes,
    whether it ended or failed; the others stay, in order. Nothing is
    removed when no session has finished.
   */
  function Reap(c: seq<Session>, o: Outcomes): (r: Option<seq<Session>>)
    ensures r.None? <==> forall j :: 0 <= j < |c| ==> !Finished(c[j], o)
    ensures r.Some? ==> |r.value| + 1 == |c| && Unfinished(r.value, o) == Unfinished(c, o)
    ensures r.Some? ==>
      var i := FirstFinished(c, o).value;
      forall j :: 0 <= j < |r.value| ==> r.value[j] == (if j < i then c[j] else c[j + 1])
  {
    match FirstFinished(c, o)
    case None => None
    case Some(i) =>
      UnfinishedSkipsFinished(c, i, o);
      var rest := c[..i] + c[i + 1..];
      assert forall j :: 0 <= j < |rest| ==> rest[j] == (if j < i then c[j] else c[j + 1]);
      Some(rest)
  }

  /** The ids, not yet given to any session, whose futures this pass reports finished. */
  function FutureFinished(n: nat, o: Outcomes): set<nat>
  {
    set id | id in o && id >= n && !o[id].Running?
  }

  lemma FutureFinishedStep(n: nat, a: Addr, o: Outcomes)
    ensures |FutureFinished(n, o)| == |FutureFinished(n + 1, o)| + (if Finished(Session(n, a), o) then 1 else 0)
  {
    if Finished(Session(n, a), o) {
      assert FutureFinished(n, o) == FutureFinished(n + 1, o) + {n};
    } else {
      assert FutureFinished(n, o) == FutureFinished(n + 1, o);
    }
  }

  /**
    What bounds a pass: the finished sessions in the pool plus the finished
    futures still to be created. Topping up keeps it, removing lowers it.
    It is finite only because `Outcomes` is a finite map.
   */
  function Measure(p: Pool, o: Outcomes): nat
  {
    |p.connections| - |Unfinished(p.connections, o)| + |FutureFinished(p.nextId, o)|
  }

  lemma LoopBodyKeepsMeasure(p: Pool, answer: seq<Addr>, rng: nat -> U64, o: Outcomes)
    ensures Measure(LoopBody(p, answer, rng), o) == Measure(p, o)
  {
    var q := LoopBody(p, answer, rng);
    if q.dns != [] {
      var s := q.connections[|p.connections|];
      assert q.connections == p.connections + [s];
      UnfinishedAppend(p.connections, [s], o);
      FutureFinishedStep(p.nextId, s.target, o);
    }
  }

  lemma {:induction false} TopUpKeepsMeasure(p: Pool, seeds: seq<seq<Addr>>, rng: nat -> U64, o: Outcomes)
    ensures Measure(TopUp(p, seeds, rng).pool, o) == Measure(p, o)
    decreases p.minConnections - |p.connections|, |seeds|
  {
    if |p.connections| >= p.minConnections || (|p.dns| == 0 && |seeds| == 0) {
    } else {
      var answer := if |p.dns| == 0 then seeds[0] else [];
      var rest := if |p.dns| == 0 then seeds[1..] else seeds;
      LoopBodyKeepsMeasure(p, answer, rng, o);
      TopUpKeepsMeasure(LoopBody(p, answer, rng), rest, rng, o);
    }
  }

  /** How a pass ends: `Async::Ready` after "no more peers", `Async::Pending`, or spinning in the top-up. */
  datatype Pass =
    | NoMorePeers(pool: Pool, seeds: seq<seq<Addr>>)
    | Parked(pool: Pool, seeds: seq<seq<Addr>>)
    | LookupSpins(pool: Pool)

  /**
    One call of `poll`, with `o` saying which futures report finished.
    The fatal branch is taken only with an empty pool, which the top-up
    allows only when the target is zero. The supervisor parks only when no session
    has finished and the pool is at its target and not empty.
   */
  function Poll(p: Pool, seeds: seq<seq<Addr>>, rng: nat -> U64, o: Outcomes): (r: Pass)
    decreases Measure(p, o)
    ensures r.pool.minConnections == p.minConnections
    ensures r.pool.nextId >= p.nextId
    ensures r.NoMorePeers? ==> r.pool.connections == [] && p.minConnections == 0
    ensures r.Parked? ==> |r.pool.connections| >= Max(1, p.minConnections)
    ensures r.Parked? ==> forall j :: 0 <= j < |r.pool.connections| ==> !Finished(r.pool.connections[j], o)
    ensures r.LookupSpins? ==> r.pool.dns == [] && |r.pool.connections| < r.pool.minConnections
  {
    match TopUp(p, seeds, rng)
    case Spinning(q) => LookupSpins(q)
    case Filled(q, rest) =>
      if |q.connections| == 0 then
        NoMorePeers(q, rest)
      else
        match Reap(q.connections, o)
        case None => Parked(q, rest)
        case Some(c) =>
          TopUpKeepsMeasure(p, seeds, rng, o);
          Poll(q.(connections := c), rest, rng, o)
  }

  /**
    With a zero target the top-up adds nothing, so a pass ends in "no more
    peers" exactly when every session in the pool has finished.
   */
  lemma {:induction false} PollFatalIff(p: Pool, seeds: seq<seq<Addr>>, rng: nat -> U64, o: Outcomes)
    requires p.minConnections == 0
    ensures Poll(p, seeds, rng, o).NoMorePeers? <==> Unfinished(p.connections, o) == []
    decreases Measure(p, o)
  {
    if |p.connections| != 0 {
      match Reap(p.connections, o)
      case None =>
        UnfinishedOfRunning(p.connections, o);
      case Some(c) =>
        TopUpKeepsMeasure(p, seeds, rng, o);
        PollFatalIff(p.(connections := c), seeds, rng, o);
    }
  }

  /** `c` starts with `u`, and every session after that has an id of at least `n`. */
  ghost predicate FreshAfter(c: seq<Session>, u: seq<Session>, n: nat)
  {
    && |u| <= |c|
    && c[..|u|] == u
    && forall j :: |u| <= j < |c| ==> c[j].id >= n
  }

  lemma FreshAfterWeaken(c: seq<Session>, u: seq<Session>, t: seq<Session>, n: nat, m: nat)
    requires FreshAfter(c, u + t, m) && n <= m
    requires forall s :: s in t ==> s.id >= n
    ensures FreshAfter(c, u, n)
  {
    assert c[..|u|] == (u + t)[..|u|];
    forall j | |u| <= j < |u| + |t|
      ensures c[j].id >= n
    {
      assert c[j] == (u + t)[j] == t[j - |u|];
    }
  }

  /** Running sessions drawn from sessions with ids of at least `n` have ids of at least `n`. */
  lemma {:induction false} UnfinishedIdsAtLeast(c: seq<Session>, n: nat, o: Outcomes)
    requires forall j :: 0 <= j < |c| ==> c[j].id >= n
    ensures forall s :: s in Unfinished(c, o) ==> s.id >= n
  {
    if c != [] {
      UnfinishedIdsAtLeast(c[1..], n, o);
    }
  }

  /** Appending sessions with ids of at least `n` appends only running sessions with such ids. */
  lemma AppendedUnfinished(before: seq<Session>, c: seq<Session>, n: nat, o: Outcomes)
    requires |before| <= |c| && c[..|before|] == before
    requires forall j :: |before| <= j < |c| ==> c[j].id >= n
    ensures Unfinished(c, o) == Unfinished(before, o) + Unfinished(c[|before|..], o)
    ensures forall s :: s in Unfinished(c[|before|..], o) ==> s.id >= n
  {
    var added := c[|before|..];
    assert c == before + added;
    UnfinishedAppend(before, added, o);
    assert forall j :: 0 <= j < |added| ==> added[j] == c[|before| + j];
    UnfinishedIdsAtLeast(added, n, o);
  }

  /**
    After a completed top-up, the running sessions are the old running ones
    followed by running fresh futures.
   */
  lemma TopUpUnfinished(p: Pool, seeds: seq<seq<Addr>>, rng: nat -> U64, o: Outcomes)
    requires TopUp(p, seeds, rng).Filled?
    ensures var q := TopUp(p, seeds, rng).pool;
      var t := Unfinished(q.connections[|p.connections|..], o);
      && Unfinished(q.connections, o) == Unfinished(p.connections, o) + t
      && forall s :: s in t ==> s.id >= p.nextId
  {
    var q := TopUp(p, seeds, rng).pool;
    TopUpAppendsFreshPicks(p, seeds, rng);
    AppendedUnfinished(p.connections, q.connections, p.nextId, o);
  }

  /** A pool with no finished session, whose running sessions are `u + t`, starts with `u`. */
  lemma ParkedNow(c: seq<Session>, u: seq<Session>, t: seq<Session>, n: nat, o: Outcomes)
    requires forall j :: 0 <= j < |c| ==> !Finished(c[j], o)
    requires Unfinished(c, o) == u + t
    requires forall s :: s in t ==> s.id >= n
    ensures FreshAfter(c, u, n)
  {
    UnfinishedOfRunning(c, o);
    FreshAfterWeaken(c, u, t, n, n);
  }

  /**
    A parked pool starts with exactly the sessions of the old pool that had
    not finished, in their old order; everything after them is a future
    created during the pass.
   */
  lemma {:induction false} PollParkedKeepsRunning(p: Pool, seeds: seq<seq<Addr>>, rng: nat -> U64, o: Outcomes)
    ensures var r := Poll(p, seeds, rng, o);
      r.Parked? ==> FreshAfter(r.pool.connections, Unfinished(p.connections, o), p.nextId)
    decreases Measure(p, o)
  {
    var l := TopUp(p, seeds, rng);
    if l.Filled? && |l.pool.connections| != 0 {
      var q, rest := l.pool, l.seeds;
      var u := Unfinished(p.connections, o);
      TopUpUnfinished(p, seeds, rng, o);
      var t := Unfinished(q.connections[|p.connections|..], o);
      var reaped := Reap(q.connections, o);
      if reaped.None? {
        ParkedNow(q.connections, u, t, p.nextId, o);
      } else {
        TopUpKeepsMeasure(p, seeds, rng, o);
        var q' := q.(connections := reaped.value);
        PollParkedKeepsRunning(q', rest, rng, o);
        var r := Poll(q', rest, rng, o);
        assert Poll(p, seeds, rng, o) == r;
        if r.Parked? {
          FreshAfterWeaken(r.pool.connections, u, t, p.nextId, q.nextId);
        }
      }
    }
  }

  /** A non-empty DNS cache is never replaced during a pass. */
  lemma {:induction false} PollKeepsFullCache(p: Pool, seeds: seq<seq<Addr>>, rng: nat -> U64, o: Outcomes)
    requires p.dns != []
    ensures Poll(p, seeds, rng, o).pool.dns == p.dns
    decreases Measure(p, o)
  {
    TopUpKeepsFullCache(p, seeds, rng);
    match TopUp(p, seeds, rng)
    case Spinning(_) =>
    case Filled(q, rest) =>
      if |q.connections| != 0 {
        match Reap(q.connections, o)
        case None =>
        case Some(c) =>
          TopUpKeepsMeasure(p, seeds, rng, o);
          PollKeepsFullCache(q.(connections := c), rest, rng, o);
      }
  }

  /** With a non-empty DNS cache the top-up always exits, so a pass never hangs in it. */
  lemma {:induction false} PollNeverSpinsWithFullCache(p: Pool, seeds: seq<seq<Addr>>, rng: nat -> U64, o: Outcomes)
    requires p.dns != []
    ensures !Poll(p, seeds, rng, o).LookupSpins?
    decreases Measure(p, o)
  {
    TopUpKeepsFullCache(p, seeds, rng);
    match TopUp(p, seeds, rng)
    case Spinning(_) =>
    case Filled(q, rest) =>
      if |q.connections| != 0 {
        match Reap(q.connections, o)
        case None =>
        case Some(c) =>
          TopUpKeepsMeasure(p, seeds, rng, o);
          PollNeverSpinsWithFullCache(q.(connections := c), rest, rng, o);
      }
  }

  /** Dropping the session at index `i` keeps the remaining futures distinct. */
  lemma DropKeepsDistinct(c: seq<Session>, d: seq<Session>, i: nat, n: nat)
    requires DistinctBelow(c, n) && i < |c| && |d| + 1 == |c|
    requires forall j {:trigger d[j]} :: 0 <= j < |d| ==> d[j] == (if j < i then c[j] else c[j + 1])
    ensures DistinctBelow(d, n)
  {
    forall a, b | 0 <= a < b < |d|
      ensures d[a].id != d[b].id
    {
      assert d[a] == c[if a < i then a else a + 1];
      assert d[b] == c[if b < i then b else b + 1];
    }
    forall a | 0 <= a < |d|
      ensures d[a].id < n
    {
      assert d[a] == c[if a < i then a else a + 1];
    }
  }

  /** Removing the first finished session keeps the futures distinct. */
  lemma ReapPreservesDistinctIds(q: Pool, o: Outcomes)
    requires DistinctIds(q) && Reap(q.connections, o).Some?
    ensures DistinctIds(q.(connections := Reap(q.connections, o).value))
  {
    DropKeepsDistinct(q.connections, Reap(q.connections, o).value, FirstFinished(q.connections, o).value, q.nextId);
  }

  /** No two sessions of the pool are ever the same future. */
  lemma {:induction false} PollPreservesDistinctIds(p: Pool, seeds: seq<seq<Addr>>, rng: nat -> U64, o: Outcomes)
    requires DistinctIds(p)
    ensures DistinctIds(Poll(p, seeds, rng, o).pool)
    decreases Measure(p, o)
  {
    TopUpPreservesDistinctIds(p, seeds, rng);
    match TopUp(p, seeds, rng)
    case Spinning(_) =>
    case Filled(q, rest) =>
      if |q.connections| != 0 {
        match Reap(q.connections, o)
        case None =>
        case Some(c) =>
          TopUpKeepsMeasure(p, seeds, rng, o);
          ReapPreservesDistinctIds(q, o);
          PollPreservesDistinctIds(q.(connections := c), rest, rng, o);
      }
  }
}

=== FILE: supervisor.dfy ===
/**
  The `KeepConnected` task across successive wakeups: the executor polls it
  again after each `Async::Pending`, until it completes.
 */
module Supervisor {
  import opened Peers
  import opened DnsLookup
  import opened PollLoop

  /**
    Successive calls of `poll`, the k-th with outcomes `passes[k]`. The run
    stops at the first pass that does not park; with no passes left the supervisor
    is still parked.
   */
  function Run(p: Pool, seeds: seq<seq<Addr>>, rng: nat -> U64, passes: seq<Outcomes>): (r: Pass)
    ensures r.pool.minConnections == p.minConnections
    ensures r.NoMorePeers? ==> p.minConnections == 0 && r.pool.connections == []
    ensures r.Parked? && passes != [] ==> |r.pool.connections| >= p.minConnections
    ensures r.LookupSpins? ==> r.pool.dns == [] && |r.pool.connections| < r.pool.minConnections
    decreases |passes|
  {
    if passes == [] then
      Parked(p, seeds)
    else
      match Poll(p, seeds, rng, passes[0])
      case Parked(q, rest) => Run(q, rest, rng, passes[1..])
      case other => other
  }

  /** Once the DNS cache is filled it stays the same for the life of the supervisor. */
  lemma {:induction false} RunKeepsFullCache(p: Pool, seeds: seq<seq<Addr>>, rng: nat -> U64, passes: seq<Outcomes>)
    requires p.dns != []
    ensures Run(p, seeds, rng, passes).pool.dns == p.dns
    decreases |passes|
  {
    if passes != [] {
      PollKeepsFullCache(p, seeds, rng, passes[0]);
      match Poll(p, seeds, rng, passes[0])
      case Parked(q, rest) =>
        RunKeepsFullCache(q, rest, rng, passes[1..]);
      case _ =>
    }
  }

  /** Once the DNS cache is filled no wakeup hangs in the top-up. */
  lemma {:induction false} RunNeverSpinsWithFullCache(p: Pool, seeds: seq<seq<Addr>>, rng: nat -> U64, passes: seq<Outcomes>)
    requires p.dns != []
    ensures !Run(p, seeds, rng, passes).LookupSpins?
    decreases |passes|
  {
    if passes != [] {
      PollNeverSpinsWithFullCache(p, seeds, rng, passes[0]);
      PollKeepsFullCache(p, seeds, rng, passes[0]);
      match Poll(p, seeds, rng, passes[0])
      case Parked(q, rest) =>
        RunNeverSpinsWithFullCache(q, rest, rng, passes[1..]);
      case _ =>
    }
  }

  /** Every session handle is owned once for the life of the supervisor. */
  lemma {:induction false} RunPreservesDistinctIds(p: Pool, seeds: seq<seq<Addr>>, rng: nat -> U64, passes: seq<Outcomes>)
    requires DistinctIds(p)
    ensures DistinctIds(Run(p, seeds, rng, passes).pool)
    decreases |passes|
  {
    if passes != [] {
      PollPreservesDistinctIds(p, seeds, rng, passes[0]);
      match Poll(p, seeds, rng, passes[0])
      case Parked(q, rest) =>
        RunPreservesDistinctIds(q, rest, rng, passes[1..]);
      case _ =>
    }
  }

  /**
    The supervisor as both entry points start it: no initial peers and a target
    of three. It never takes the fatal branch, and its first wakeup asks the
    seeder until the first non-empty answer and then stops asking. Given
    `[A, B]` twice and with every session still running, the first wakeup
    opens three sessions to A or B, caches `[A, B]`, leaves the second answer
    unused and parks.
   */
  lemma StartWithThree(a: Addr, b: Addr, rng: nat -> U64, passes: seq<Outcomes>)
    ensures !Run(KeepConnected([], 3), [[a, b], [a, b]], rng, passes).NoMorePeers?
    ensures var r := Poll(KeepConnected([], 3), [[a, b], [a, b]], rng, map[]);
      && r.Parked?
      && r.seeds == [[a, b]]
      && r.pool.dns == [a, b]
      && |r.pool.connections| == 3
      && forall j :: 0 <= j < 3 ==> r.pool.connections[j].target in {a, b}
  {
    var p := KeepConnected([], 3);
    var seeds := [[a, b], [a, b]];
    assert p.connections == [];
    assert !AllEmpty(seeds) by {
      assert seeds[0] != [];
    }
    var l := TopUp(p, seeds, rng);
    TopUpSeedsOnce(p, seeds, rng);
    TopUpAppendsFreshPicks(p, seeds, rng);
    assert FirstAnswer(seeds) == ([a, b], [[a, b]]);
    assert l.pool.dns == [a, b] && l.seeds == [[a, b]];
    assert |l.pool.connections| == 3;
    assert forall j :: 0 <= j < 3 ==> l.pool.connections[j].target in l.pool.dns;
    assert Reap(l.pool.connections, map[]).None?;
    assert Poll(p, seeds, rng, map[]) == Parked(l.pool, l.seeds);
  }
}

=== FILE: trunk.dfy ===
/**
  `ChainDBTrunk`: the read-only trunk view over the chain database. The
  database is abstract: the trunk position of each hash on the best chain,
  the stored headers by hash, and the tip.
 */
module ChainTrunk {
  import opened Wrappers

  /** A 32-bit unsigned integer, the type of a block height. */
  type U32 = x: nat | x < 0x1_0000_0000

  /** A double-SHA256 block hash. */
  datatype Hash = Hash(digest: nat)

  datatype BlockHeader = BlockHeader(version: int, prevBlockhash: Hash, merkleRoot: Hash, time: U32, bits: U32, nonce: U32)

  /** A header as the database stores it, with its height. */
  datatype StoredHeader = StoredHeader(header: BlockHeader, height: U32)

  /** A stored header together with its hash. */
  datatype CachedHeader = CachedHeader(id: Hash, stored: StoredHeader)

  /**
    What the view reads of the chain database: `trunk` holds the height of
    every hash on the best chain, `headers` every header known by hash, and
    `tip` the best header, if any.
   */
  datatype ChainDB = ChainDB(trunk: map<Hash, U32>, headers: map<Hash, CachedHeader>, tip: Option<CachedHeader>)

  /** The database's `pos_on_trunk`. */
  function PosOnTrunk(db: ChainDB, h: Hash): Option<U32>
  {
    if h in db.trunk then Some(db.trunk[h]) else None
  }

  /** `is_on_trunk`: whether the hash is on the best chain. */
  function IsOnTrunk(db: ChainDB, h: Hash): bool
  {
    PosOnTrunk(db, h).Some?
  }

  /** `get_header`: the stored header with this hash, whether on the trunk or not. */
  function GetHeader(db: ChainDB, h: Hash): Option<BlockHeader>
  {
    if h in db.headers then Some(db.headers[h].stored.header) else None
  }

  /** `get_height`: the trunk height of the hash, or nothing when it is not on the trunk. */
  function GetHeight(db: ChainDB, h: Hash): Option<U32>
  {
    PosOnTrunk(db, h)
  }

  /** `get_tip`: the header at the tip, or nothing when the chain is empty. */
  function GetTip(db: ChainDB): Option<BlockHeader>
  {
    match db.tip
    case Some(cached) => Some(cached.stored.header)
    case None => None
  }

  /** `len`: the stored height of the tip, and 0 without a tip. */
  function Len(db: ChainDB): U32
  {
    match db.tip
    case Some(cached) => cached.stored.height
    case None => 0
  }

  /** `is_on_trunk` and `get_height` agree, both reading the same trunk position. */
  lemma OnTrunkIffHeight(db: ChainDB, h: Hash)
    ensures IsOnTrunk(db, h) <==> GetHeight(db, h).Some?
  {
  }

  /**
    Each answer reads one part of the database: `is_on_trunk` and
    `get_height` only the trunk index, `get_header` only the header store
    (so a side-branch header is found as well), `get_tip` and `len` only the
    tip.
   */
  lemma AnswersReadOwnPart(db: ChainDB, other: ChainDB, h: Hash)
    ensures db.trunk == other.trunk ==> IsOnTrunk(db, h) == IsOnTrunk(other, h) && GetHeight(db, h) == GetHeight(other, h)
    ensures db.headers == other.headers ==> GetHeader(db, h) == GetHeader(other, h)
    ensures db.tip == other.tip ==> GetTip(db) == GetTip(other) && Len(db) == Len(other)
  {
  }

  /**
    `len` is the tip's height: zero exactly when there is no tip or the tip
    is the genesis header at height 0.
   */
  lemma LenFollowsTip(db: ChainDB)
    ensures GetTip(db).None? ==> Len(db) == 0
    ensures Len(db) != 0 ==> GetTip(db).Some?
    ensures GetTip(db).Some? ==> Len(db) == db.tip.value.stored.height
  {
  }

  /**
    The consistency the chain database keeps between its trunk index, its
    header store and its tip: the tip is on the trunk at its stored height,
    every trunk hash is stored at its trunk height, no trunk height exceeds
    the tip's, and an empty chain has an empty trunk.
   */
  ghost predicate Consistent(db: ChainDB)
  {
    && (db.tip.None? ==> db.trunk == map[])
    && (db.tip.Some? ==> db.tip.value.id in db.trunk && db.trunk[db.tip.value.id] == db.tip.value.stored.height)
    && (db.tip.Some? ==> db.tip.value.id in db.headers && db.headers[db.tip.value.id] == db.tip.value)
    && forall h :: h in db.trunk ==>
         && h in db.headers
         && db.headers[h].stored.height == db.trunk[h]
         && (db.tip.Some? ==> db.trunk[h] <= db.tip.value.stored.height)
  }

  /**
    Over a consistent database the answers of one snapshot agree: a hash on
    the trunk has a header, its height is the one the header was stored at
    and is no greater than `len`, the tip is on
    the trunk at height `len` and `get_header` returns it, and an empty chain
    has nothing on its trunk.
   */
  lemma ViewIsCoherent(db: ChainDB, h: Hash)
    requires Consistent(db)
    ensures IsOnTrunk(db, h) ==> GetHeader(db, h).Some? && GetHeight(db, h).value <= Len(db)
    ensures IsOnTrunk(db, h) ==> GetHeight(db, h) == Some(db.headers[h].stored.height)
    ensures GetTip(db).None? ==> !IsOnTrunk(db, h)
    ensures GetTip(db).Some? ==>
      && GetHeight(db, db.tip.value.id) == Some(Len(db))
      && GetHeader(db, db.tip.value.id) == GetTip(db)
  {
  }
}

=== FILE: wrappers.dfy ===
/** The optional value used where the source returns an `Option`. */
module Wrappers {

  datatype Option<+T> = None | Some(value: T)
}
